=== FILE: README.md ===
# Fitness-club catalog and contact form — a Dafny model

This project models the four pieces of logic in a small fitness-brand
marketing site (a Next.js app) that are pure enough to state and prove:

- **Product card** (`components/products/ProductCard.tsx`). The card picks
  the slug it links to: a stored non-empty slug, or one derived from the
  product name by lower-casing, turning each whitespace run into `-`, and
  removing everything outside `[A-Za-z0-9_-]`. It also picks the main image,
  decides whether an MRP is struck through and what "% OFF" badge is shown,
  and decides whether the card is a link at all.
- **Supplements listing** (`app/supplements/page.tsx`). The category and
  brand selectors, each with an `'all'` sentinel, filter an already-fetched
  product list. The page also has a "Clear filters" transition, a pluralised
  "Showing N products" caption and an empty state.
- **Contact relay** (`app/api/contact/route.ts`). The route validates
  `Name`, `Phone` and `Message`, posts them upstream as three form pairs to a
  spreadsheet web app, and maps the web app's answer to one of four statuses
  (200/400/500/502) with fixed error strings.
- **Contact form** (`components/home/ContactForm.tsx`). The form is an
  event-driven state machine: field edits, submission start, the settled
  request (outcome and then `finally`), and the timer that hides the success
  banner.

Layout, one module per file:

| file | module | what |
|---|---|---|
| `wrappers.dfy` | `Wrappers` | `Option` (absent property = `None`) |
| `json.dfy` | `Json` | parsed JSON values, property read (last duplicate key wins), JavaScript truthiness |
| `http.dfy` | `Http` | response bodies (`Unreadable`, `NonJson`, `JsonText`), responses, `response.ok` |
| `slug.dfy` | `Slug` | the three-stage slug derivation and its algebra |
| `catalog.dfy` | `Catalog` | the `Product` record |
| `product_card.dfy` | `ProductCard` | slug choice, image, discount, link |
| `supplements.dfy` | `Supplements` | filter, clear, caption, empty state |
| `contact_route.dfy` | `ContactRoute` | the relay as a total function of (request, upstream answer) |
| `contact_form.dfy` | `ContactForm` | the form's states and transitions, plus its round trip through the relay |

Modelling choices:

- **Slug character classes.** `\s` is the full ECMAScript whitespace and
  line-terminator set. `[\w\-]` is ASCII letters, digits, `_` and `-`.
  `toLowerCase` is exact for every character that can survive the final
  removal: ASCII upper case, KELVIN SIGN (to `k`), and LATIN CAPITAL LETTER I
  WITH DOT ABOVE (to `i` plus a combining dot).
- **Request and response bodies.** These are JSON values, so that `!Name`,
  `data.success`, `result.message || …` follow JavaScript truthiness. Reading
  a property of `null` throws, so that is modelled as an exception path.
- **Upstream answer.** `ContactRoute.Relay` takes the upstream answer as a
  parameter, because the network call cannot be modelled. It returns the
  response and the form body it posted, or `None` when no call was made.
- **Submit event.** The form's `Submit` event is enabled only when no request
  is in flight, which models the disabled button (line 153). Every field must
  also be non-empty, which models the browser's `required` check (lines 104,
  124, 143). A `Settle` event is enabled only while a request is in flight. A
  timer event is enabled only while a success timer is pending.
- **Details of the form that are easy to misread.**
  - During a request the status stays `idle`; `isSubmitting` is a separate
    flag (ContactForm.tsx lines 30-31, `ContactForm.Consistent`).
  - An error message is cleared by the next edit (lines 22-25) and also by
    the next submission (line 32).
  - A pending success timer sets the status to `idle` whatever it is when it
    fires, so it also hides the banner of a later failed submission
    (`ContactForm.ResetFires`, `ContactForm.StaleTimerHidesError`).
  - Nothing trims the contact fields: the route checks only truthiness.

## Model

| member | source | states |
|---|---|---|
| `Json.Lookup` | app/api/contact/route.ts:9-10 | a property is found exactly when some member has that key, and then it is the value of the last such member, as `JSON.parse` keeps the last duplicate |
| `Json.Truthy` | app/api/contact/route.ts:13 | JavaScript truthiness: `null`, `false`, `0` and the empty string are falsy, everything else is truthy |
| `Json.TruthyField` | app/api/contact/route.ts:13 | truthiness of a property read: an absent property (`undefined`) is falsy, a present one is as truthy as its value (also ContactForm.tsx lines 45 and 54) |
| `Json.Get` | app/api/contact/route.ts:10 | a property read `v.key` on a non-null value: nothing on a non-object, otherwise the object's lookup; it reads the request fields destructured at line 10 (also lines 45 and 53, and ContactForm.tsx lines 45 and 54) |
| `Json.OrElse` | app/api/contact/route.ts:53 | the fallback read `v or fallback`: the value when it is truthy, the fallback otherwise (also ContactForm.tsx line 54) |
| `Http.IsOk` | app/api/contact/route.ts:33 | `response.ok`: the status is in 200..299 |
| `Slug.IsSpace` | components/products/ProductCard.tsx:28 | `\s`: the ECMAScript whitespace and line-terminator characters |
| `Slug.IsKept` | components/products/ProductCard.tsx:28 | `[\w\-]`: ASCII letters, digits, `_` and `-` |
| `Slug.LowerChar` | components/products/ProductCard.tsx:28 | lower-casing never yields ASCII upper case; `A`-`Z` become the matching `a`-`z`; any other character except KELVIN SIGN and LATIN CAPITAL LETTER I WITH DOT ABOVE is kept; whitespace maps to itself and nothing else maps to whitespace |
| `Slug.Lower` | components/products/ProductCard.tsx:28 | the lowered name contains no ASCII upper-case letter |
| `Slug.LowerOfPlain` | components/products/ProductCard.tsx:28 | without the two special capitals, lower-casing keeps the length and lowers every character on its own (`A`-`Z` to `a`-`z`, the rest unchanged) |
| `Slug.Hyphenate` | components/products/ProductCard.tsx:28 | after `/\s+/g → '-'` no whitespace is left and every character is `-` or one of the input's |
| `Slug.Strip` | components/products/ProductCard.tsx:28 | after removing `[^\w\-]+` only `[A-Za-z0-9_-]` characters remain, each from the input, and the text is no longer |
| `Slug.Derive` | components/products/ProductCard.tsx:28 | a derived slug uses only `a-z`, `0-9`, `_`, `-` and contains no whitespace |
| `Slug.DeriveFixesSlug` | components/products/ProductCard.tsx:28 | any text already in the slug alphabet derives to itself |
| `Slug.DeriveIdempotent` | components/products/ProductCard.tsx:28 | deriving from a derived slug returns it unchanged |
| `Slug.DeriveAppend` | components/products/ProductCard.tsx:28 | derivation distributes over concatenation at any boundary that does not join two whitespace runs |
| `Slug.DeriveSpaceRun` | components/products/ProductCard.tsx:28 | a whitespace run of any length and kind derives to exactly one `-` |
| `Slug.DeriveAroundRun` | components/products/ProductCard.tsx:28 | a maximal whitespace run between two pieces of text contributes exactly one `-` between their slugs |
| `Slug.DeriveChar` | components/products/ProductCard.tsx:28 | a non-space character derives to its kept lower case; an upper-case ASCII letter derives to its lower-case letter; `-`, `_`, digits and letters survive |
| `Slug.DeriveSpaceless` | components/products/ProductCard.tsx:28 | text without whitespace derives to its lower case with removed characters dropped |
| `Slug.LeadingSpace` | components/products/ProductCard.tsx:28 | a name starting with whitespace derives to a slug starting with `-` |
| `Slug.DeriveCons` | components/products/ProductCard.tsx:28 | a name starting with a non-space character derives to that character's kept lower case followed by the rest's slug |
| `Slug.DeriveEmptyIff` | components/products/ProductCard.tsx:28 | the derived slug is empty exactly when every character of the name is dropped |
| `Slug.LowerAscii` | components/products/ProductCard.tsx:28 | the reference lower case of a plain word: same length, each character `A`-`Z` moved to `a`-`z` and the rest unchanged |
| `Slug.DeriveKeptWord` | components/products/ProductCard.tsx:28 | a word of `[A-Za-z0-9_-]` derives to exactly its ASCII lower case |
| `Slug.PercentWord` | components/products/ProductCard.tsx:28 | `100%` derives to `100`: the percent sign is removed |
| `Slug.GoldWheyExample` | components/products/ProductCard.tsx:28 | the name `Gold Whey 100%` derives to `gold-whey-100` |
| `ProductCard.HasStoredSlug` | components/products/ProductCard.tsx:28 | the `product.slug or …` fallback: a stored slug is used only when present and non-empty |
| `ProductCard.ChosenSlug` | components/products/ProductCard.tsx:28 | a non-empty stored slug is used verbatim; an absent or empty one falls back to a derived slug in the slug alphabet |
| `ProductCard.ShowsMrp` | components/products/ProductCard.tsx:24 | the MRP guard `product.mrp && product.mrp > product.price`: present, non-zero and above the price |
| `ProductCard.ShowsBadge` | components/products/ProductCard.tsx:48 | the '% OFF' badge shows exactly when the rounded discount is positive: the MRP is struck through and the exact saving is at least half a percent |
| `ProductCard.MainImage` | components/products/ProductCard.tsx:23 | the first image when `images` is present and non-empty, else `/common/goldenlogo.png` |
| `ProductCard.HasPhoto` | components/products/ProductCard.tsx:33 | the photo condition `product.images && product.images.length > 0` |
| `ProductCard.Discount` | components/products/ProductCard.tsx:24-26 | the discount is 0 unless the MRP is present, non-zero and above the price; otherwise it is the saving percentage rounded half up, pinned between exact bounds; it is at most 100 and positive exactly when the saving is at least half a percent |
| `ProductCard.RoundedPercent` | components/products/ProductCard.tsx:25 | `Math.round` of `100 part / whole`: the result `d` satisfies `d - 1/2 <= 100 part / whole < d + 1/2`, lies in 0..100 and is positive exactly when the saving is at least half a percent |
| `ProductCard.Href` | components/products/ProductCard.tsx:99-107 | the card links to `/products/<slug>` exactly when the chosen slug is non-empty |
| `ProductCard.CardOf` | components/products/ProductCard.tsx:22-107 | the card shows the main image, a photo exactly when there is one, the rounded discount, a struck-through MRP exactly when the MRP guard holds, a stray `0` exactly when `mrp` is 0, and the link; a badge implies a struck-through MRP |
| `ProductCard.NoLinkIffNameAllDropped` | components/products/ProductCard.tsx:28-107 | without a stored slug, the card has no link exactly when every character of the name is dropped |
| `ProductCard.DerivedHrefAlphabet` | components/products/ProductCard.tsx:101 | a derived link is `/products/` followed only by slug characters |
| `ProductCard.ChosenSlugStable` | components/products/ProductCard.tsx:28 | a card's derived slug derives to itself |
| `ProductCard.StoringDerivedSlugKeepsHref` | components/products/ProductCard.tsx:28-107 | storing the derived slug on the product does not change the link |
| `ProductCard.StruckMrpWithoutBadge` | components/products/ProductCard.tsx:24-89 | price 999 under MRP 1000 strikes the MRP through but rounds to a 0% discount, so no badge shows |
| `ProductCard.ZeroMrpShowsStrayZero` | components/products/ProductCard.tsx:89-93 | with `mrp` equal to 0 the price line shows a bare `0` and no struck-through MRP |
| `ProductCard.IntendedCardOf` | components/products/ProductCard.tsx:22-107 | the card with a boolean MRP guard: the same image, photo, discount, strike-through and link, and never a stray `0` |
| `ProductCard.IntendedDiffersOnlyAtZero` | components/products/ProductCard.tsx:89 | the corrected card equals the rendered one exactly when `mrp` is not 0 |
| `Supplements.CategoryMatch` | app/supplements/page.tsx:79 | the category selector is `'all'` or equals the product's category; a product without one never matches a specific category |
| `Supplements.BrandMatch` | app/supplements/page.tsx:80 | the brand selector is `'all'` or equals the product's brand; a product without one never matches a specific brand |
| `Supplements.Matches` | app/supplements/page.tsx:81 | a product is shown when both selectors match |
| `Supplements.Filtered` | app/supplements/page.tsx:78-82 | every kept product passes both selectors; a specific category or brand is matched exactly, and a product lacking it is dropped; each product is kept with its full multiplicity exactly when it matches |
| `Supplements.FilteredIsSubsequence` | app/supplements/page.tsx:78 | the filtered list is an order-preserving subsequence of the product list |
| `Supplements.FilteredMembership` | app/supplements/page.tsx:78-82 | a product is listed exactly when it is in the list and passes the category and the brand condition |
| `Supplements.UnfilteredKeepsAll` | app/supplements/page.tsx:78-82 | with both selectors on `'all'` the filtered list is the whole list |
| `Supplements.FilterComposes` | app/supplements/page.tsx:79-81 | filtering by both selectors equals filtering by category and then by brand |
| `Supplements.Clear` | app/supplements/page.tsx:159-164 | clearing is offered only when a selector is not `'all'`, and sets both to `'all'` |
| `Supplements.ClearOffered` | app/supplements/page.tsx:159 | "Clear filters" is offered when either selector is not `'all'` |
| `Supplements.ClearShowsAll` | app/supplements/page.tsx:159-164 | after clearing every product is listed |
| `Supplements.Decimal` | app/supplements/page.tsx:174 | the printed count is a non-empty digit string without a leading zero |
| `Supplements.DecimalRoundTrip` | app/supplements/page.tsx:174 | the printed count reads back as the count |
| `Supplements.CountLabel` | app/supplements/page.tsx:174 | the caption is `Showing `, the count in decimal without a leading zero, then ` product` with an `s` exactly when the count is not 1 |
| `Supplements.GridOf` | app/supplements/page.tsx:156-180 | the empty state shows exactly when no product matches, with "Clear filters" exactly when a selector is set; otherwise the matching products are listed under the caption for their count |
| `Supplements.EmptyWithoutClearMeansNoProducts` | app/supplements/page.tsx:156-164 | an empty state without "Clear filters" means the product list itself is empty |
| `ContactRoute.FormBody` | app/api/contact/route.ts:20-23 | the upstream body is exactly three pairs, `Name`, `Phone`, `Message` in that order, carrying the request's values |
| `ContactRoute.FieldsPresent` | app/api/contact/route.ts:13 | the validation: `Name`, `Phone` and `Message` are all truthy |
| `ContactRoute.Failure` | app/api/contact/route.ts:14-17 | a failure envelope has the given status and reads back `success: false` and its error text (also lines 37-40 and 60-63) |
| `ContactRoute.Accepted` | app/api/contact/route.ts:46-49 | the success envelope has status 200 and reads back `success: true`, no error, the fixed message and the web app's answer as `data` |
| `ContactRoute.SheetRejected` | app/api/contact/route.ts:52-55 | the web-app error envelope has status 500 and reads back `success: false`, the answer's truthy `message` or the fallback text, and the answer as `data` |
| `ContactRoute.Relayed` | app/api/contact/route.ts:25-64 | a readable non-2xx answer gives 502; a 2xx JSON answer with `result === "success"` gives 200; everything else gives 500 |
| `ContactRoute.Relay` | app/api/contact/route.ts:7-65 | the status is one of 200/400/500/502; 400 exactly when a field is falsy; upstream is called exactly when all three are present, with the three-pair body; a request that is not forwarded and not rejected gets the internal error |
| `ContactRoute.RelayEnvelopes` | app/api/contact/route.ts:7-65 | every response is the internal error, the 400 or 502 failure, the success envelope for the web app's answer, or the web-app error envelope |
| `ContactRoute.SuccessIffOk` | app/api/contact/route.ts:13-64 | the envelope's `success` is true exactly when the status is 200 |
| `ContactRoute.RejectedIgnoresUpstream` | app/api/contact/route.ts:13-18 | a request that is not forwarded gets the same response whatever the upstream would have said |
| `ContactRoute.MissingFieldRejected` | app/api/contact/route.ts:13-18 | a missing or falsy field gives 400 "All fields are required" and no upstream call |
| `ContactRoute.BadStatusIs502` | app/api/contact/route.ts:33-41 | a readable non-2xx answer gives 502 "Failed to submit to Google Sheets" whatever its body |
| `ContactRoute.SheetSuccessEchoed` | app/api/contact/route.ts:45-49 | a 2xx answer with `result === "success"` gives 200 "Form submitted successfully" echoing the answer under `data` |
| `ContactRoute.SheetErrorMessage` | app/api/contact/route.ts:50-56 | a 2xx answer with another `result` gives 500 with the answer's truthy `message` or "Unknown error from sheet script", echoing the answer |
| `ContactRoute.ExceptionsAreInternal` | app/api/contact/route.ts:58-64 | an unparsable or `null` request, an unreachable or unreadable upstream, or a 2xx answer that is not JSON or is `null` gives 500 "Internal Server Error" |
| `ContactForm.SetField` | components/home/ContactForm.tsx:17-20 | the edited field takes the new value and the other two keep theirs |
| `ContactForm.EditField` | components/home/ContactForm.tsx:15-26 | an edit changes only that field; an error status becomes idle with the message cleared, any other status is kept |
| `ContactForm.StartSubmit` | components/home/ContactForm.tsx:28-32 | submission start sets submitting, status idle and an empty message, keeping the fields |
| `ContactForm.Succeed` | components/home/ContactForm.tsx:45-51 | a truthy `success` sets status success, resets all three fields and schedules one reset timer |
| `ContactForm.Fail` | components/home/ContactForm.tsx:52-55 | a falsy `success` sets status error with `data.error` if truthy, else the fallback text, keeping the fields and the submitting flag |
| `ContactForm.Crash` | components/home/ContactForm.tsx:56-58 | an exception sets status error with the network-error text, keeping the fields and the submitting flag |
| `ContactForm.Finally` | components/home/ContactForm.tsx:59-61 | the `finally` block clears the submitting flag and keeps everything else |
| `ContactForm.SettleWith` | components/home/ContactForm.tsx:34-61 | every settled submission ends not submitting; success exactly when the body is non-null JSON with truthy `success`, and then the fields are blank and the message kept; a failed fetch, an unreadable or non-JSON body or `null` shows the network-error text; other JSON shows `data.error` or the fallback text; the fields are kept on error |
| `ContactForm.ResetFires` | components/home/ContactForm.tsx:48-51 | the success timer sets the status to idle whatever it is, touching nothing else |
| `ContactForm.CanSubmit` | components/home/ContactForm.tsx:104-153 | a submit reaches the handler only while no request is in flight (line 153) and all three `required` fields are non-empty (lines 104, 124, 143) |
| `ContactForm.Enabled` | components/home/ContactForm.tsx:28-61 | edits are always possible, a submit needs `CanSubmit`, a request settles only while one is in flight, a timer fires only when one is pending |
| `ContactForm.Step` | components/home/ContactForm.tsx:15-61 | after an event a request is in flight exactly when the event submitted, or one was in flight and the event did not settle it; a submit keeps the fields and leaves the status idle |
| `ContactForm.TypingFills` | components/home/ContactForm.tsx:15-26 | typing the three fields outside an error fills them in and changes nothing else |
| `ContactForm.RunAppend` | components/home/ContactForm.tsx:15-61 | running two event sequences one after the other is running their concatenation |
| `ContactForm.StaleTimerHidesError` | components/home/ContactForm.tsx:48-58 | for any three non-empty typed fields and any success answer, a success followed by a failed submission and the first timer firing ends idle with the network-error text stored and no error banner |
| `ContactForm.StepKeepsConsistent` | components/home/ContactForm.tsx:15-62 | every transition keeps the state consistent: idle with no message while submitting, no message on success, a truthy message on error |
| `ContactForm.RunKeepsConsistent` | components/home/ContactForm.tsx:15-62 | any sequence of possible events keeps the state consistent |
| `ContactForm.ReachableConsistent` | components/home/ContactForm.tsx:6-62 | every state reachable from the initial one is consistent |
| `ContactForm.ViewOf` | components/home/ContactForm.tsx:151-227 | the success banner shows exactly on success, the error banner exactly on error and never both; the button is disabled exactly while submitting and then reads "Submitting...", otherwise "Send Message" |
| `ContactForm.ReachableBanners` | components/home/ContactForm.tsx:186-227 | in a reachable state the error banner never has an empty message, and no banner shows while the button is disabled |
| `ContactForm.RequestOf` | components/home/ContactForm.tsx:40 | `JSON.stringify(formData)` as the relay parses it: an object with `Name`, `Phone` and `Message` holding the typed text |
| `ContactForm.RequestReadsBack` | components/home/ContactForm.tsx:40 | the relay reads each typed field back out of the request body |
| `ContactForm.SubmissionForwarded` | components/home/ContactForm.tsx:35-41 | what the form submits always passes the relay's validation and is forwarded as the typed text |
| `ContactForm.SettleOnFailure` | components/home/ContactForm.tsx:52-55 | a failure envelope makes the form show an error with the envelope's error text |
| `ContactForm.SettleOnAccepted` | components/home/ContactForm.tsx:45-47 | the success envelope makes the form show success |
| `ContactForm.SettleOnSheetRejected` | components/home/ContactForm.tsx:52-55 | a web-app error envelope makes the form show the error text the relay chose |
| `ContactForm.RoundTripThroughRelay` | components/home/ContactForm.tsx:43-58 | after a round trip through the relay the form shows success exactly when the relay answered 200, and otherwise shows the relay's error text (for 502, "Failed to submit to Google Sheets") |

## Findings

| source | as written | input that shows it | evidently intended | confidence | as-written member | corrected member |
|---|---|---|---|---|---|---|
| components/products/ProductCard.tsx:89 | `{product.mrp && product.mrp > product.price && (…)}` evaluates to the number `0` when `mrp` is 0, and React renders it beside the price | a product with `mrp: 0` | nothing beside the price unless the MRP is struck through | high (not executed) | `ProductCard.ZeroMrpShowsStrayZero` | `ProductCard.IntendedCardOf` |

`ProductCard.CardOf` keeps the component's behaviour, stray `0` included.
`ProductCard.IntendedCardOf` is the same card with the guard read as a
boolean, and `ProductCard.IntendedDiffersOnlyAtZero` shows that the two differ
only for an MRP of 0.

## Left out

- The data loading of the listing page (`Promise.all` over three fetches, JSON parsing, the loading and error flags, page.tsx:40-76) is I/O and concurrency. The grid is modelled for the state after loading finished without error.
- The products, brands and categories API routes, and the product-detail and brand-detail pages, are out of scope. They are database passthroughs, and the store's `isActive` filter runs inside the database.
- The navigation bar, the about section, the video banner, the scroll animation, the map embed and the layouts are presentation only.
- The selector option lists (page.tsx:96-135) and the card's brand, description, weight and flavor text are presentation only. A category or brand literally named `all` cannot be told apart from the sentinel; the model shares that behaviour.
- `ProductCard.Discount`: computed in exact rational arithmetic. The source divides and multiplies in IEEE doubles, so whenever the exact percentage is an integer plus one half, the double can land just below it and `Math.round` rounds down where the model rounds up. For example, MRP 1000 and price 855 is exactly 14.5%, but `(145 / 1000) * 100` is 14.499999999999998 as a double, so the card shows 14% OFF where the model gives 15. The same applies to `ProductCard.RoundedPercent`.
- `ProductCard.Discount`: prices are whole currency units (`price: nat`, `mrp: int`). `toLocaleString` price formatting is not modelled.
- `Slug.LowerChar`: maps only ASCII upper case, KELVIN SIGN and LATIN CAPITAL LETTER I WITH DOT ABOVE. JavaScript also lowers other non-ASCII letters, but those results are removed by the last stage, so every derived slug is unaffected. The strings are Unicode scalar values, not UTF-16 code units; the regular expressions treat both the same way here.
- `URLSearchParams` serialisation (`application/x-www-form-urlencoded`, section 5.2 of the WHATWG URL Standard) is not modelled. Neither is `String()` conversion of non-string field values. The upstream body is kept as (name, value) pairs.
- JSON serialisation of responses is not modelled. `ContactForm.RoundTripThroughRelay` takes the envelope as the form parses it back.
- JSON numbers are integers: the core only asks whether a number is zero. Property reads see only an object's own members, which is exact for the keys the core reads.
- The real `fetch` calls, `console.error` logging and the 5-second `setTimeout` delay are not modelled. The upstream answer is a parameter, and the timer is an explicit event with a count of pending timers.
- React rendering of a non-string `errorMessage` is not modelled, and neither is unmounting the component while a request or timer is pending.

=== FILE: catalog.dfy ===
/** The product record the listing page fetches and the product card renders. */
module Catalog {
  import opened Wrappers

  /**
   * A product as the card receives it. Optional fields are `None` when the
   * document lacks them. Prices are whole currency units.
   */
  datatype Product = Product(
    id: string,
    name: string,
    slug: Option<string>,
    description: Option<string>,
    images: Option<seq<string>>,
    price: nat,
    mrp: Option<int>,
    brand: Option<string>,
    category: Option<string>,
    weight: Option<string>,
    flavor: Option<string>
  )
}

=== FILE: contact_form.dfy ===
/**
 * The contact form on the home page as an event-driven state machine: field
 * edits, the start of a submission, the settled request (its outcome
 * followed by the `finally` block), and the timer that hides the success banner.
 */
module ContactForm {
  import opened Wrappers
  import opened Json
  import opened Http
  import ContactRoute

  const FallbackError := "Failed to submit form. Please try again."
  const NetworkError := "Network error. Please check your connection and try again."

  /** `submitStatus`: `'idle' | 'success' | 'error'`. */
  datatype Status = Idle | Success | Error

  datatype FieldName = Name | Phone | Message

  datatype Fields = Fields(name: string, phone: string, message: string)

  const Blank := Fields("", "", "")

  /**
   * The component state. `errorMessage` holds whatever `data.error` was, so it
   * is a JSON value; the form itself only ever puts strings there.
   * `pendingResets` counts the success timers scheduled and not yet fired.
   */
  datatype Form = Form(fields: Fields, submitting: bool, status: Status, errorMessage: Json, pendingResets: nat)

  const Initial := Form(Blank, false, Idle, Str(""), 0)

  /** What the submission's `fetch` produced. The form does not look at the status. */
  datatype Reply = FetchFailed | Fetched(status: int, body: Payload)

  datatype Event =
    | Edit(field: FieldName, value: string)
    | Submit
    | Settle(reply: Reply)
    | ResetTimerFires

  function ValueOf(f: Fields, field: FieldName): (v: string) {
    match field
    case Name => f.name
    case Phone => f.phone
    case Message => f.message
  }

  /** `{ ...prev, [name]: value }`. */
  function SetField(f: Fields, field: FieldName, value: string): (g: Fields)
    ensures ValueOf(g, field) == value
    ensures forall other :: other != field ==> ValueOf(g, other) == ValueOf(f, other)
  {
    match field
    case Name => f.(name := value)
    case Phone => f.(phone := value)
    case Message => f.(message := value)
  }

  /** `handleChange`: store the value; typing after an error clears the error. */
  function EditField(s: Form, field: FieldName, value: string): (t: Form)
    ensures ValueOf(t.fields, field) == value
    ensures forall other :: other != field ==> ValueOf(t.fields, other) == ValueOf(s.fields, other)
    ensures t.submitting == s.submitting && t.pendingResets == s.pendingResets
    ensures s.status == Error ==> t.status == Idle && t.errorMessage == Str("")
    ensures s.status != Error ==> t.status == s.status && t.errorMessage == s.errorMessage
  {
    var t := s.(fields := SetField(s.fields, field, value));
    if s.status == Error then t.(status := Idle, errorMessage := Str("")) else t
  }

  /**
   * A submit event reaches `handleSubmit` only when the button is enabled
   * (not submitting) and the browser's `required` check passes (no field is empty).
   */
  predicate CanSubmit(s: Form) {
    !s.submitting && s.fields.name != "" && s.fields.phone != "" && s.fields.message != ""
  }

  /** The first three statements of `handleSubmit`. */
  function StartSubmit(s: Form): (t: Form)
    requires CanSubmit(s)
    ensures t.submitting && t.status == Idle && t.errorMessage == Str("")
    ensures t.fields == s.fields && t.pendingResets == s.pendingResets
  {
    s.(submitting := true, status := Idle, errorMessage := Str(""))
  }

  /** `JSON.stringify(formData)` as the relay parses it. */
  function RequestOf(f: Fields): (body: Json) {
    Obj([Member("Name", Str(f.name)), Member("Phone", Str(f.phone)), Member("Message", Str(f.message))])
  }

  /** `data.success` is truthy: show success, empty the fields, schedule the reset. */
  function Succeed(s: Form): (t: Form)
    ensures t.status == Success && t.fields == Blank && t.pendingResets == s.pendingResets + 1
    ensures t.errorMessage == s.errorMessage && t.submitting == s.submitting
  {
    s.(status := Success, fields := Blank, pendingResets := s.pendingResets + 1)
  }

  /** `data.success` is falsy: show `data.error`, or the fallback text when that is falsy. */
  function Fail(s: Form, data: Json): (t: Form)
    requires !data.Null?
    ensures t.status == Error && t.fields == s.fields && t.pendingResets == s.pendingResets
    ensures t.submitting == s.submitting
    ensures Truthy(t.errorMessage)
    ensures TruthyField(Get(data, "error")) ==> t.errorMessage == Get(data, "error").value
    ensures !TruthyField(Get(data, "error")) ==> t.errorMessage == Str(FallbackError)
  {
    s.(status := Error, errorMessage := OrElse(Get(data, "error"), Str(FallbackError)))
  }

  /** The `catch` block: any exception shows the network error. */
  function Crash(s: Form): (t: Form)
    ensures t.status == Error && t.errorMessage == Str(NetworkError)
    ensures t.fields == s.fields && t.pendingResets == s.pendingResets && t.submitting == s.submitting
  {
    s.(status := Error, errorMessage := Str(NetworkError))
  }

  /** The `finally` block. */
  function Finally(s: Form): (t: Form)
    ensures !t.submitting
    ensures t.fields == s.fields && t.status == s.status && t.errorMessage == s.errorMessage
    ensures t.pendingResets == s.pendingResets
  {
    s.(submitting := false)
  }

  /**
   * The rest of `handleSubmit` once the request settles. `fetch` rejecting,
   * `response.json()` failing and reading `.success` of `null` all throw.
   */
  function SettleWith(s: Form, reply: Reply): (t: Form)
    requires s.submitting
    ensures !t.submitting
    ensures t.status == Success <==> reply.Fetched? && reply.body.JsonText? && !reply.body.value.Null?
                                     && TruthyField(Get(reply.body.value, "success"))
    ensures t.status == Success ==> t.fields == Blank && t.pendingResets == s.pendingResets + 1
    ensures t.status != Success ==> t.status == Error && t.fields == s.fields && t.pendingResets == s.pendingResets
    ensures t.status == Error ==> Truthy(t.errorMessage)
    ensures t.status == Success ==> t.errorMessage == s.errorMessage
    ensures || reply.FetchFailed?
            || (reply.Fetched? && (reply.body.Unreadable? || reply.body.NonJson? || reply.body == JsonText(Null)))
            ==> t.status == Error && t.errorMessage == Str(NetworkError)
    ensures reply.Fetched? && reply.body.JsonText? && !reply.body.value.Null?
            && !TruthyField(Get(reply.body.value, "success"))
            ==> t.status == Error && t.errorMessage == OrElse(Get(reply.body.value, "error"), Str(FallbackError))
  {
    var settled :=
      match reply
      case FetchFailed => Crash(s)
      case Fetched(_, body) =>
        match body
        case Unreadable => Crash(s)
        case NonJson => Crash(s)
        case JsonText(data) =>
          if data.Null? then Crash(s)
          else if TruthyField(Get(data, "success")) then Succeed(s)
          else Fail(s, data);
    Finally(settled)
  }

  /** The success timer: back to idle, whatever the status is by then. */
  function ResetFires(s: Form): (t: Form)
    requires s.pendingResets > 0
    ensures t.status == Idle && t.pendingResets == s.pendingResets - 1
    ensures t.fields == s.fields && t.submitting == s.submitting && t.errorMessage == s.errorMessage
  {
    s.(status := Idle, pendingResets := s.pendingResets - 1)
  }

  /** When an event can happen: a request settles only while one is in flight, a timer only when scheduled. */
  predicate Enabled(s: Form, e: Event) {
    match e
    case Edit(_, _) => true
    case Submit => CanSubmit(s)
    case Settle(_) => s.submitting
    case ResetTimerFires => s.pendingResets > 0
  }

  /** One event. A request is in flight afterwards exactly when this event submitted, or one was and this event did not settle it. */
  function Step(s: Form, e: Event): (t: Form)
    requires Enabled(s, e)
    ensures t.submitting <==> e.Submit? || (s.submitting && !e.Settle?)
    ensures e.Submit? ==> t.fields == s.fields && t.status == Idle
  {
    match e
    case Edit(field, value) => EditField(s, field, value)
    case Submit => StartSubmit(s)
    case Settle(reply) => SettleWith(s, reply)
    case ResetTimerFires => ResetFires(s)
  }

  /** Runs a sequence of events; `None` when one of them cannot happen in the state it meets. */
  function Run(s: Form, events: seq<Event>): (r: Option<Form>)
    decreases |events|
  {
    if events == [] then Some(s)
    else if Enabled(s, events[0]) then Run(Step(s, events[0]), events[1..])
    else None
  }

  // ---------------------------------------------------------------------------
  // What every reachable state satisfies.

  /**
   * While a request is in flight the form is idle with no message; a success
   * carries no message; an error always carries a truthy one.
   */
  predicate Consistent(s: Form) {
    && (s.submitting ==> s.status == Idle && s.errorMessage == Str(""))
    && (s.status == Success ==> s.errorMessage == Str(""))
    && (s.status == Error ==> Truthy(s.errorMessage))
  }

  lemma StepKeepsConsistent(s: Form, e: Event)
    requires Consistent(s) && Enabled(s, e)
    ensures Consistent(Step(s, e))
  {
  }

  lemma {:induction false} RunKeepsConsistent(s: Form, events: seq<Event>)
    requires Consistent(s)
    ensures Run(s, events).Some? ==> Consistent(Run(s, events).value)
    decreases |events|
  {
    if events != [] && Enabled(s, events[0]) {
      StepKeepsConsistent(s, events[0]);
      RunKeepsConsistent(Step(s, events[0]), events[1..]);
    }
  }

  /** Every state reachable from the initial one is consistent. */
  lemma ReachableConsistent(events: seq<Event>)
    ensures Run(Initial, events).Some? ==> Consistent(Run(Initial, events).value)
  {
    RunKeepsConsistent(Initial, events);
  }

  /** Typing each field in turn. */
  function Typing(f: Fields): (events: seq<Event>)
    ensures |events| == 3
  {
    [Edit(Name, f.name), Edit(Phone, f.phone), Edit(Message, f.message)]
  }

  /** Typing the three fields outside an error fills them in and changes nothing else. */
  lemma TypingFills(s: Form, f: Fields)
    requires s.status != Error
    ensures Run(s, Typing(f)) == Some(s.(fields := f))
  {
    var e := Typing(f);
    var a := Step(s, e[0]);
    var b := Step(a, e[1]);
    var c := Step(b, e[2]);
    assert Run(s, e) == Run(a, e[1..]);
    assert Run(a, e[1..]) == Run(b, e[1..][1..]);
    assert Run(b, e[1..][1..]) == Run(c, []);
    assert c == s.(fields := f);
  }

  /** Running `a + b` runs `a`, then `b` from where `a` left off. */
  lemma {:induction false} RunAppend(s: Form, a: seq<Event>, b: seq<Event>)
    ensures Run(s, a + b) == (match Run(s, a) case None => None case Some(m) => Run(m, b))
    decreases |a|
  {
    if a == [] {
      assert a + b == b;
    } else {
      assert (a + b)[0] == a[0];
      assert (a + b)[1..] == a[1..] + b;
      if Enabled(s, a[0]) {
        RunAppend(Step(s, a[0]), a[1..], b);
      }
    }
  }

  /**
   * The success timer does not know about later submissions: after a success,
   * a second submission that fails shows the network error, and the first
   * submission's timer then sets the status back to idle, hiding that error
   * while its text stays stored.
   */
  lemma StaleTimerHidesError(typed: Fields, status: int, data: Json)
    requires typed.name != "" && typed.phone != "" && typed.message != ""
    requires !data.Null? && TruthyField(Get(data, "success"))
    ensures var events := Typing(typed) + [Submit, Settle(Fetched(status, JsonText(data)))]
                        + Typing(typed) + [Submit, Settle(FetchFailed), ResetTimerFires];
            && Run(Initial, events).Some?
            && Run(Initial, events).value.status == Idle
            && Run(Initial, events).value.errorMessage == Str(NetworkError)
            && ViewOf(Run(Initial, events).value).errorBanner.None?
  {
    var first := [Submit, Settle(Fetched(status, JsonText(data)))];
    var second := [Submit, Settle(FetchFailed), ResetTimerFires];
    var s1 := Initial.(fields := typed);
    var s2 := Form(Blank, false, Success, Str(""), 1);
    var s3 := s2.(fields := typed);
    var s4 := Form(typed, false, Idle, Str(NetworkError), 0);
    TypingFills(Initial, typed);
    assert Run(s1, first) == Some(s2) by {
      var a := Step(s1, Submit);
      assert Run(s1, first) == Run(a, first[1..]);
      assert Run(a, first[1..]) == Run(Step(a, first[1]), []);
    }
    TypingFills(s2, typed);
    assert Run(s3, second) == Some(s4) by {
      var a := Step(s3, Submit);
      var b := Step(a, second[1]);
      assert Run(s3, second) == Run(a, second[1..]);
      assert Run(a, second[1..]) == Run(b, second[1..][1..]);
      assert Run(b, second[1..][1..]) == Run(Step(b, ResetTimerFires), []);
    }
    var t1 := Typing(typed);
    RunAppend(Initial, t1, first);
    RunAppend(Initial, t1 + first, t1);
    RunAppend(Initial, t1 + first + t1, second);
  }

  // ---------------------------------------------------------------------------
  // What is rendered.

  datatype View = View(successBanner: bool, errorBanner: Option<Json>, buttonDisabled: bool, buttonText: string)

  function ViewOf(s: Form): (v: View)
    ensures v.successBanner <==> s.status == Success
    ensures v.errorBanner.Some? <==> s.status == Error
    ensures v.errorBanner.Some? ==> v.errorBanner.value == s.errorMessage
    ensures v.buttonDisabled <==> s.submitting
    ensures v.buttonText == (if v.buttonDisabled then "Submitting..." else "Send Message")
    ensures !(v.successBanner && v.errorBanner.Some?)
  {
    View(
      s.status == Success,
      if s.status == Error then Some(s.errorMessage) else None,
      s.submitting,
      if s.submitting then "Submitting..." else "Send Message")
  }

  /** In a reachable state the error banner never shows an empty message, and no banner shows mid-request. */
  lemma ReachableBanners(events: seq<Event>)
    requires Run(Initial, events).Some?
    ensures var v := ViewOf(Run(Initial, events).value);
            && (v.errorBanner.Some? ==> Truthy(v.errorBanner.value))
            && (v.buttonDisabled ==> !v.successBanner && v.errorBanner.None?)
  {
    ReachableConsistent(events);
  }

  // ---------------------------------------------------------------------------
  // The form talking to the relay.

  /** The relay reads the typed text back out of the request body. */
  lemma RequestReadsBack(f: Fields)
    ensures var body := RequestOf(f);
            && Get(body, "Name") == Some(Str(f.name))
            && Get(body, "Phone") == Some(Str(f.phone))
            && Get(body, "Message") == Some(Str(f.message))
  {
    var ms := RequestOf(f).members;
    LookupFresh(ms, "Name", 0);
    LookupFresh(ms, "Phone", 1);
    LookupFresh(ms, "Message", 2);
  }

  /** What the form submits always passes the relay's check and is forwarded as the typed text. */
  lemma SubmissionForwarded(s: Form, upstream: ContactRoute.Upstream)
    requires CanSubmit(s)
    ensures var o := ContactRoute.Relay(ContactRoute.JsonBody(RequestOf(s.fields)), upstream);
            && o.response.status != 400
            && o.forwarded == Some([
                 ContactRoute.FormPair("Name", Str(s.fields.name)),
                 ContactRoute.FormPair("Phone", Str(s.fields.phone)),
                 ContactRoute.FormPair("Message", Str(s.fields.message))])
  {
    RequestReadsBack(s.fields);
  }

  /** The form reading a failure envelope shows its error text. */
  lemma SettleOnFailure(s: Form, status: int, error: Json)
    requires s.submitting && Truthy(error)
    ensures var t := SettleWith(s, Fetched(status, JsonText(ContactRoute.Failure(status, error).body)));
            t.status == Error && t.errorMessage == error
  {
  }

  /** The form reading the success envelope shows success. */
  lemma SettleOnAccepted(s: Form, sheet: Json)
    requires s.submitting
    ensures SettleWith(s, Fetched(200, JsonText(ContactRoute.Accepted(sheet).body))).status == Success
  {
  }

  /** The form reading a web-app error envelope shows the error the relay chose. */
  lemma SettleOnSheetRejected(s: Form, sheet: Json)
    requires s.submitting && !sheet.Null?
    ensures var t := SettleWith(s, Fetched(500, JsonText(ContactRoute.SheetRejected(sheet).body)));
            t.status == Error && Some(t.errorMessage) == ContactRoute.ErrorOf(ContactRoute.SheetRejected(sheet))
  {
  }

  /**
   * One submission round trip through the relay: the form shows success
   * exactly when the relay answers 200, and otherwise shows the relay's error text.
   */
  lemma RoundTripThroughRelay(s: Form, upstream: ContactRoute.Upstream)
    requires CanSubmit(s)
    ensures var r := ContactRoute.Relay(ContactRoute.JsonBody(RequestOf(s.fields)), upstream).response;
            var t := SettleWith(StartSubmit(s), Fetched(r.status, JsonText(r.body)));
            && (t.status == Success <==> r.status == 200)
            && (t.status == Error ==> Some(t.errorMessage) == ContactRoute.ErrorOf(r))
            && (r.status == 502 ==> t.errorMessage == Str(ContactRoute.UpstreamFailed))
  {
    var request := ContactRoute.JsonBody(RequestOf(s.fields));
    SubmissionForwarded(s, upstream);
    ContactRoute.RelayEnvelopes(request, upstream);
    var r := ContactRoute.Relay(request, upstream).response;
    var s' := StartSubmit(s);
    if r == ContactRoute.Internal {
      SettleOnFailure(s', 500, Str(ContactRoute.InternalServerError));
    } else if r == ContactRoute.Failure(502, Str(ContactRoute.UpstreamFailed)) {
      SettleOnFailure(s', 502, Str(ContactRoute.UpstreamFailed));
    } else if upstream.Answered? && upstream.body.JsonText? && r == ContactRoute.Accepted(upstream.body.value) {
      SettleOnAccepted(s', upstream.body.value);
    } else {
      SettleOnSheetRejected(s', upstream.body.value);
    }
  }
}

=== FILE: contact_route.dfy ===
/**
 * The contact relay (`POST /api/contact`): checks that `Name`, `Phone` and
 * `Message` are truthy, forwards them to the spreadsheet web app as three
 * form pairs, and turns the web app's answer into a JSON envelope.
 */
module ContactRoute {
  import opened Wrappers
  import opened Json
  import opened Http

  const AllFieldsRequired := "All fields are required"
  const UpstreamFailed := "Failed to submit to Google Sheets"
  const Submitted := "Form submitted successfully"
  const UnknownSheetError := "Unknown error from sheet script"
  const InternalServerError := "Internal Server Error"

  /** The incoming request body: not JSON at all, or a parsed JSON value. */
  datatype Request = MalformedJson | JsonBody(value: Json)

  /**
   * What the call to the web app produced: the request never got an answer
   * (`fetch` rejected), or a status with a body.
   */
  datatype Upstream = Unreachable | Answered(status: int, body: Payload)

  /** One `name=value` pair of the form-encoded body, before serialisation. */
  datatype FormPair = FormPair(name: string, value: Json)

  /** The response, and the form body posted upstream (`None` when no call was made). */
  datatype Outcome = Outcome(response: Response, forwarded: Option<seq<FormPair>>)

  /** `{ success: false, error }`: a client reads back `success: false` and the error. */
  function Failure(status: int, error: Json): (r: Response)
    ensures r.status == status && !r.body.Null?
    ensures Get(r.body, "success") == Some(Bool(false)) && Get(r.body, "error") == Some(error)
  {
    var ms := [Member("success", Bool(false)), Member("error", error)];
    LookupFresh(ms, "success", 0);
    LookupFresh(ms, "error", 1);
    Response(status, Obj(ms))
  }

  /** The envelope every thrown exception is turned into. */
  const Internal := Failure(500, Str(InternalServerError))

  /**
   * `{ success: true, message: "Form submitted successfully", data: result }`
   * with status 200: a client reads back `success: true`, no error, the fixed
   * message and the web app's answer.
   */
  function Accepted(sheet: Json): (r: Response)
    ensures r.status == 200 && !r.body.Null?
    ensures Get(r.body, "success") == Some(Bool(true)) && Get(r.body, "error").None?
    ensures Get(r.body, "message") == Some(Str(Submitted)) && Get(r.body, "data") == Some(sheet)
  {
    var ms := [Member("success", Bool(true)), Member("message", Str(Submitted)), Member("data", sheet)];
    LookupFresh(ms, "success", 0);
    LookupFresh(ms, "message", 1);
    LookupFresh(ms, "data", 2);
    Response(200, Obj(ms))
  }

  /**
   * `{ success: false, error: result.message || "Unknown error from sheet script", data: result }`
   * with status 500: a client reads back `success: false`, the answer's truthy
   * `message` or the fallback text, and the answer itself.
   */
  function SheetRejected(sheet: Json): (r: Response)
    requires !sheet.Null?
    ensures r.status == 500 && !r.body.Null?
    ensures Get(r.body, "success") == Some(Bool(false))
    ensures Get(r.body, "error") == Some(if TruthyField(Get(sheet, "message")) then Get(sheet, "message").value
                                         else Str(UnknownSheetError))
    ensures Get(r.body, "data") == Some(sheet)
  {
    var ms := [
      Member("success", Bool(false)),
      Member("error", OrElse(Get(sheet, "message"), Str(UnknownSheetError))),
      Member("data", sheet)];
    LookupFresh(ms, "success", 0);
    LookupFresh(ms, "error", 1);
    LookupFresh(ms, "data", 2);
    Response(500, Obj(ms))
  }

  /** The error text carried by a failure envelope. */
  function ErrorOf(r: Response): (error: Option<Json>)
  {
    if r.body.Null? then None else Get(r.body, "error")
  }

  predicate FieldsPresent(body: Json)
    requires !body.Null?
  {
    TruthyField(Get(body, "Name")) && TruthyField(Get(body, "Phone")) && TruthyField(Get(body, "Message"))
  }

  /** The form body built from a request whose three fields are present. */
  function FormBody(body: Json): (pairs: seq<FormPair>)
    requires !body.Null? && FieldsPresent(body)
    ensures |pairs| == 3
    ensures pairs[0].name == "Name" && pairs[1].name == "Phone" && pairs[2].name == "Message"
    ensures forall i :: 0 <= i < 3 ==> Get(body, pairs[i].name) == Some(pairs[i].value)
  {
    [ FormPair("Name", Get(body, "Name").value),
      FormPair("Phone", Get(body, "Phone").value),
      FormPair("Message", Get(body, "Message").value) ]
  }

  /** How the web app's answer is reported to the client. */
  function Relayed(upstream: Upstream): (r: Response)
    ensures r.status in {200, 500, 502}
    ensures r.status == 502 <==> upstream.Answered? && !IsOk(upstream.status) && !upstream.body.Unreadable?
    ensures r.status == 200 <==> upstream.Answered? && IsOk(upstream.status) && upstream.body.JsonText?
                                 && !upstream.body.value.Null?
                                 && Get(upstream.body.value, "result") == Some(Str("success"))
  {
    match upstream
    case Unreachable => Internal
    case Answered(status, body) =>
      if !IsOk(status) then
        // the body is read as text for the log; only a failed read changes the outcome
        if body.Unreadable? then Internal else Failure(502, Str(UpstreamFailed))
      else
        match body
        case Unreadable => Internal
        case NonJson => Internal
        case JsonText(sheet) =>
          if sheet.Null? then Internal  // reading `.result` of null throws
          else if Get(sheet, "result") == Some(Str("success")) then Accepted(sheet)
          else SheetRejected(sheet)
  }

  /** The whole handler, from request body and upstream answer to response. */
  function Relay(request: Request, upstream: Upstream): (o: Outcome)
    ensures o.response.status in {200, 400, 500, 502}
    ensures o.response.status == 400 <==> request.JsonBody? && !request.value.Null? && !FieldsPresent(request.value)
    ensures o.forwarded.Some? <==> request.JsonBody? && !request.value.Null? && FieldsPresent(request.value)
    ensures o.forwarded.Some? ==> o.forwarded.value == FormBody(request.value) && o.response == Relayed(upstream)
    ensures o.forwarded.None? && o.response.status != 400 ==> o.response == Internal
  {
    match request
    case MalformedJson => Outcome(Internal, None)
    case JsonBody(body) =>
      if body.Null? then Outcome(Internal, None)  // destructuring null throws
      else if !FieldsPresent(body) then Outcome(Failure(400, Str(AllFieldsRequired)), None)
      else Outcome(Relayed(upstream), Some(FormBody(body)))
  }

  // ---------------------------------------------------------------------------

  /** Every response the relay can give is one of the five envelopes. */
  lemma RelayEnvelopes(request: Request, upstream: Upstream)
    ensures var r := Relay(request, upstream).response;
            || r == Internal
            || r == Failure(400, Str(AllFieldsRequired))
            || r == Failure(502, Str(UpstreamFailed))
            || (upstream.Answered? && upstream.body.JsonText? && r == Accepted(upstream.body.value))
            || (upstream.Answered? && upstream.body.JsonText? && !upstream.body.value.Null?
                && r == SheetRejected(upstream.body.value))
  {
  }

  /** The `success` flag of the envelope is true exactly for status 200. */
  lemma SuccessIffOk(request: Request, upstream: Upstream)
    ensures var r := Relay(request, upstream).response;
            !r.body.Null? && Get(r.body, "success") == Some(Bool(r.status == 200))
  {
    RelayEnvelopes(request, upstream);
    var r := Relay(request, upstream).response;
    if r == Internal {
    } else if r == Failure(400, Str(AllFieldsRequired)) {
    } else if r == Failure(502, Str(UpstreamFailed)) {
    } else if r == Accepted(upstream.body.value) {
    } else {
    }
  }

  /** A rejected request never reaches the web app, so its response does not depend on it. */
  lemma RejectedIgnoresUpstream(request: Request, u1: Upstream, u2: Upstream)
    requires Relay(request, u1).forwarded.None?
    ensures Relay(request, u1) == Relay(request, u2)
  {
  }

  /** A web app answer that is 2xx JSON without `result: "success"` gives 500 with its message, or the fallback. */
  lemma SheetErrorMessage(request: Request, status: int, sheet: Json)
    requires request.JsonBody? && !request.value.Null? && FieldsPresent(request.value)
    requires IsOk(status) && !sheet.Null? && Get(sheet, "result") != Some(Str("success"))
    ensures var r := Relay(request, Answered(status, JsonText(sheet))).response;
            && r.status == 500
            && ErrorOf(r) == Some(if TruthyField(Get(sheet, "message")) then Get(sheet, "message").value else Str(UnknownSheetError))
            && Get(r.body, "data") == Some(sheet)
  {
  }

  /** A non-2xx answer is reported as 502 whatever its body says, as long as the body can be read. */
  lemma BadStatusIs502(request: Request, status: int, body: Payload)
    requires request.JsonBody? && !request.value.Null? && FieldsPresent(request.value)
    requires !IsOk(status) && !body.Unreadable?
    ensures var r := Relay(request, Answered(status, body)).response;
            r.status == 502 && ErrorOf(r) == Some(Str(UpstreamFailed))
  {
  }

  /** A 2xx answer with `result: "success"` is echoed back under `data` with the fixed message. */
  lemma SheetSuccessEchoed(request: Request, status: int, sheet: Json)
    requires request.JsonBody? && !request.value.Null? && FieldsPresent(request.value)
    requires IsOk(status) && !sheet.Null? && Get(sheet, "result") == Some(Str("success"))
    ensures var r := Relay(request, Answered(status, JsonText(sheet))).response;
            && r.status == 200
            && Get(r.body, "message") == Some(Str(Submitted))
            && Get(r.body, "data") == Some(sheet)
  {
  }

  /** A request missing any of the three fields gets 400 "All fields are required" and no upstream call. */
  lemma MissingFieldRejected(body: Json, upstream: Upstream)
    requires !body.Null? && !FieldsPresent(body)
    ensures var o := Relay(JsonBody(body), upstream);
            && o.response.status == 400
            && ErrorOf(o.response) == Some(Str(AllFieldsRequired))
            && o.forwarded.None?
  {
  }

  /**
   * Every exception the handler can meet (a body that is not JSON or is
   * `null`, an unreachable web app, an unreadable body, a 2xx answer that is
   * not JSON or is `null`) gives 500 "Internal Server Error".
   */
  lemma ExceptionsAreInternal(request: Request, upstream: Upstream)
    requires || request.MalformedJson?
             || (request.JsonBody? && request.value.Null?)
             || (request.JsonBody? && !request.value.Null? && FieldsPresent(request.value)
                 && (|| upstream.Unreachable?
                     || (upstream.Answered? && upstream.body.Unreadable?)
                     || (upstream.Answered? && IsOk(upstream.status) && upstream.body.NonJson?)
                     || (upstream.Answered? && IsOk(upstream.status) && upstream.body == JsonText(Null))))
    ensures var r := Relay(request, upstream).response;
            r.status == 500 && ErrorOf(r) == Some(Str(InternalServerError))
  {
  }
}

=== FILE: http.dfy ===
/** HTTP bodies and responses as the contact relay and the contact form see them. */
module Http {
  import opened Json

  /**
   * What reading a response body yields: the read itself fails (`Unreadable`),
   * the text is not JSON (`NonJson`, so `response.json()` throws), or it parses.
   */
  datatype Payload = Unreadable | NonJson | JsonText(value: Json)

  /** A response produced by `NextResponse.json(body, { status })`. */
  datatype Response = Response(status: int, body: Json)

  /** `response.ok`: the status is in the range 200-299. */
  predicate IsOk(status: int) {
    200 <= status <= 299
  }
}

=== FILE: json.dfy ===
/**
 * Parsed JSON values, as `JSON.parse` hands them to the route and the form,
 * with the two JavaScript operations the core applies to them: reading a
 * property (`v.key`) and truthiness (`!v`, `v || fallback`).
 */
module Json {
  import opened Wrappers

  /** A JSON number is kept as an integer: the core only ever asks whether it is zero. */
  datatype Json =
    | Null
    | Bool(b: bool)
    | Num(n: int)
    | Str(s: string)
    | Arr(items: seq<Json>)
    | Obj(members: seq<Member>)

  datatype Member = Member(key: string, value: Json)

  /** JavaScript truthiness: `null`, `false`, `0` and `""` are falsy, everything else is truthy. */
  predicate Truthy(v: Json) {
    match v
    case Null => false
    case Bool(b) => b
    case Num(n) => n != 0
    case Str(s) => s != ""
    case Arr(_) => true
    case Obj(_) => true
  }

  /** Truthiness of a property read, where an absent property (`undefined`) is falsy. */
  predicate TruthyField(o: Option<Json>) {
    o.Some? && Truthy(o.value)
  }

  /**
   * The value of `key` among an object's members. `JSON.parse` lets a later
   * duplicate key overwrite an earlier one, so the LAST member with that key wins.
   */
  function Lookup(ms: seq<Member>, key: string): (r: Option<Json>)
    ensures r.Some? <==> exists i :: 0 <= i < |ms| && ms[i].key == key
    ensures r.Some? ==> exists i :: 0 <= i < |ms| && ms[i].key == key && ms[i].value == r.value
                                   && forall j :: i < j < |ms| ==> ms[j].key != key
  {
    if ms == [] then None
    else if ms[|ms| - 1].key == key then Some(ms[|ms| - 1].value)
    else
      var r := Lookup(ms[..|ms| - 1], key);
      assert forall i :: 0 <= i < |ms| - 1 ==> ms[..|ms| - 1][i] == ms[i];
      r
  }

  /**
   * The property read `v.key`; `None` is `undefined`. Reading a property of
   * `null` throws, so the caller handles `Null` before asking. Only objects
   * carry the keys this model reads: none of them is a built-in property of
   * strings, arrays, numbers, booleans or `Object.prototype`.
   */
  function Get(v: Json, key: string): (r: Option<Json>)
    requires !v.Null?
    ensures !v.Obj? ==> r.None?
    ensures v.Obj? ==> r == Lookup(v.members, key)
  {
    match v
    case Obj(ms) => Lookup(ms, key)
    case _ => None
  }

  /** `v || fallback` for a property read. */
  function OrElse(o: Option<Json>, fallback: Json): (r: Json)
    ensures TruthyField(o) ==> r == o.value
    ensures !TruthyField(o) ==> r == fallback
  {
    if TruthyField(o) then o.value else fallback
  }

  /** A key that occurs exactly once among an object's members reads back as that member's value. */
  lemma {:induction false} LookupFresh(ms: seq<Member>, key: string, i: nat)
    requires i < |ms| && ms[i].key == key
    requires forall j :: 0 <= j < |ms| && j != i ==> ms[j].key != key
    ensures Lookup(ms, key) == Some(ms[i].value)
  {
    var r := Lookup(ms, key);
    var k :| 0 <= k < |ms| && ms[k].key == key && ms[k].value == r.value
              && forall j :: k < j < |ms| ==> ms[j].key != key;
    assert k == i;
  }
}

=== FILE: product_card.dfy ===
/** The decisions a product card makes before rendering: link slug, image, price display. */
module ProductCard {
  import opened Wrappers
  import opened Catalog
  import Slug

  const FallbackImage := "/common/goldenlogo.png"
  const ProductsPath := "/products/"

  /** `product.slug || derived`: a stored slug counts only when it is non-empty. */
  predicate HasStoredSlug(p: Product) {
    p.slug.Some? && p.slug.value != ""
  }

  /** The slug the card links to. */
  function ChosenSlug(p: Product): (r: string)
    ensures HasStoredSlug(p) ==> r == p.slug.value
    ensures !HasStoredSlug(p) ==> r == Slug.Derive(p.name) && Slug.IsSlug(r)
  {
    if HasStoredSlug(p) then p.slug.value else Slug.Derive(p.name)
  }

  /** `product.images && product.images.length > 0`: the card shows a photo, not the placeholder icon. */
  predicate HasPhoto(p: Product) {
    p.images.Some? && |p.images.value| > 0
  }

  /** The main image: the first listed image, or the fallback logo. */
  function MainImage(p: Product): (r: string)
    ensures HasPhoto(p) ==> r == p.images.value[0] && r in p.images.value
    ensures !HasPhoto(p) ==> r == FallbackImage
  {
    if HasPhoto(p) then p.images.value[0] else FallbackImage
  }

  /**
   * `product.mrp && product.mrp > product.price`: an MRP is present, non-zero
   * (truthy) and above the price. This guards both the percentage and the
   * struck-through MRP.
   */
  predicate ShowsMrp(p: Product) {
    p.mrp.Some? && p.mrp.value != 0 && p.mrp.value > p.price
  }

  /**
   * `Math.round((mrp - price) / mrp * 100)` when the MRP is shown, else 0,
   * computed in exact rational arithmetic: `Math.round(x)` is `floor(x + 1/2)`,
   * and `floor(100 (m - p) / m + 1/2)` is `(200 (m - p) + m) div 2m`.
   */
  function Discount(p: Product): (d: nat)
    ensures !ShowsMrp(p) ==> d == 0
    ensures d <= 100
    ensures d > 0 ==> ShowsMrp(p)
    ensures ShowsMrp(p) ==> (d > 0 <==> 200 * (p.mrp.value - p.price) >= p.mrp.value)
    ensures ShowsMrp(p) ==> var m := p.mrp.value;
              2 * m * d <= 200 * (m - p.price) + m < 2 * m * (d + 1)
  {
    if ShowsMrp(p) then
      var m := p.mrp.value;
      RoundedPercent(m - p.price, m)
    else 0
  }

  /** `floor(100 * part / whole + 1/2)` for `0 < part <= whole`. */
  function RoundedPercent(part: int, whole: int): (d: nat)
    requires 0 < part <= whole
    ensures d <= 100
    ensures d > 0 <==> 200 * part >= whole
    ensures 2 * whole * d <= 200 * part + whole < 2 * whole * (d + 1)
  {
    var num, den := 200 * part + whole, 2 * whole;
    assert num < 101 * den;
    var q := num / den;
    assert den * q <= num < den * (q + 1) by { DivBounds(num, den); }
    if num < den then 0 else
      assert q >= 1 by { DivAtLeastOne(num, den); }
      assert q <= 100 by { DivBelow(num, den, 101); }
      q
  }

  lemma DivBounds(n: int, d: int)
    requires 0 < d && 0 <= n
    ensures d * (n / d) <= n < d * (n / d + 1)
  {
  }

  lemma DivAtLeastOne(n: int, d: int)
    requires 0 < d <= n
    ensures n / d >= 1
  {
  }

  lemma DivBelow(n: int, d: int, k: nat)
    requires 0 < d && 0 <= n < k * d
    ensures n / d < k
  {
  }

  /** The percentage badge is shown only for a positive discount. */
  function ShowsBadge(p: Product): (r: bool)
    ensures r <==> ShowsMrp(p) && 200 * (p.mrp.value - p.price) >= p.mrp.value
  {
    Discount(p) > 0
  }

  /** The link target: `/products/<slug>` when the chosen slug is non-empty, no link otherwise. */
  function Href(p: Product): (r: Option<string>)
    ensures r.Some? <==> ChosenSlug(p) != ""
    ensures r.Some? ==> r.value == ProductsPath + ChosenSlug(p)
  {
    var slug := ChosenSlug(p);
    if slug != "" then Some(ProductsPath + slug) else None
  }

  /**
   * Everything the card decides, in one record. `strayZero` is the text `0`
   * that the MRP guard renders beside the price when `mrp` is the number 0:
   * `0 && …` evaluates to `0`, and React prints a number child.
   */
  datatype Card = Card(image: string, photo: bool, discount: nat, strikesMrp: bool, strayZero: bool, href: Option<string>)

  /** The card as the component renders it. */
  function CardOf(p: Product): (c: Card)
    ensures c.image == MainImage(p) && (c.photo <==> HasPhoto(p)) && c.href == Href(p)
    ensures c.discount == Discount(p) && (c.strikesMrp <==> ShowsMrp(p))
    ensures c.strayZero <==> p.mrp == Some(0)
    ensures c.discount > 0 ==> c.strikesMrp
    ensures c.href.Some? <==> ChosenSlug(p) != ""
    ensures !c.photo ==> c.image == FallbackImage
  {
    Card(MainImage(p), HasPhoto(p), Discount(p), ShowsMrp(p), p.mrp == Some(0), Href(p))
  }

  /** Beside the price, the card shows either nothing or the struck-through MRP. */
  predicate PriceLineClean(c: Card) {
    c.strayZero ==> c.strikesMrp
  }

  /** An MRP of 0 puts a bare `0` beside the price, with no MRP struck through. */
  lemma ZeroMrpShowsStrayZero(p: Product)
    requires p.mrp == Some(0)
    ensures CardOf(p).strayZero && !CardOf(p).strikesMrp
    ensures !PriceLineClean(CardOf(p))
  {
  }

  /** The card with the guard written as a boolean (`!!product.mrp && …`): the same decisions, and no stray `0`. */
  function IntendedCardOf(p: Product): (c: Card)
    ensures PriceLineClean(c) && !c.strayZero
    ensures c.image == MainImage(p) && (c.photo <==> HasPhoto(p)) && c.href == Href(p)
    ensures c.discount == Discount(p) && (c.strikesMrp <==> ShowsMrp(p))
  {
    CardOf(p).(strayZero := false)
  }

  /** The corrected card differs from the rendered one only for an MRP of 0. */
  lemma IntendedDiffersOnlyAtZero(p: Product)
    ensures IntendedCardOf(p) == CardOf(p) <==> p.mrp != Some(0)
  {
  }

  // ---------------------------------------------------------------------------

  /**
   * Without a stored slug, a card has no link exactly when every character of
   * the name is one the derivation drops (no whitespace, nothing that lowers
   * to `[a-z0-9_-]`).
   */
  lemma NoLinkIffNameAllDropped(p: Product)
    requires !HasStoredSlug(p)
    ensures Href(p).None? <==> forall i :: 0 <= i < |p.name| ==> Slug.Dropped(p.name[i])
  {
    Slug.DeriveEmptyIff(p.name);
  }

  /** A derived link path is `/products/` followed only by slug characters. */
  lemma DerivedHrefAlphabet(p: Product)
    requires !HasStoredSlug(p)
    ensures Href(p).Some? ==> Href(p).value[..|ProductsPath|] == ProductsPath
    ensures Href(p).Some? ==> Slug.IsSlug(Href(p).value[|ProductsPath|..])
  {
    if Href(p).Some? {
      assert Href(p).value[|ProductsPath|..] == ChosenSlug(p);
    }
  }

  /** Re-deriving a card's derived slug from itself returns the same slug. */
  lemma ChosenSlugStable(p: Product)
    requires !HasStoredSlug(p)
    ensures Slug.Derive(ChosenSlug(p)) == ChosenSlug(p)
  {
    Slug.DeriveIdempotent(p.name);
  }

  /** Storing the derived slug on the product does not change where the card links. */
  lemma StoringDerivedSlugKeepsHref(p: Product)
    requires !HasStoredSlug(p)
    ensures Href(p.(slug := Some(ChosenSlug(p)))) == Href(p)
  {
  }

  /**
   * A struck-through MRP does not imply a badge: an MRP of 1000 over a price
   * of 999 is struck through, while the rounded discount is 0% and no badge shows.
   */
  lemma StruckMrpWithoutBadge(p: Product)
    requires p.price == 999 && p.mrp == Some(1000)
    ensures ShowsMrp(p) && !ShowsBadge(p)
  {
  }
}

=== FILE: slug.dfy ===
/**
 * The slug a product card falls back to when the product has no stored slug:
 * `name.toLowerCase().replace(/\s+/g, '-').replace(/[^\w\-]+/g, '')`,
 * modelled as three stages over `seq<char>`.
 */
module Slug {

  /** `\s` of an ECMAScript regular expression: the WhiteSpace and LineTerminator code points. */
  predicate IsSpace(c: char) {
    || c == '\t' || c == '\n' || c == '\U{000B}' || c == '\U{000C}' || c == '\r' || c == ' '
    || c == '\U{00A0}' || c == '\U{1680}' || ('\U{2000}' <= c <= '\U{200A}')
    || c == '\U{2028}' || c == '\U{2029}' || c == '\U{202F}' || c == '\U{205F}'
    || c == '\U{3000}' || c == '\U{FEFF}'
  }

  /** `[\w\-]`: the characters the final replacement keeps. */
  predicate IsKept(c: char) {
    ('a' <= c <= 'z') || ('A' <= c <= 'Z') || ('0' <= c <= '9') || c == '_' || c == '-'
  }

  /** The alphabet of a derived slug: lower-case ASCII letters, digits, `_` and `-`. */
  predicate IsSlugChar(c: char) {
    ('a' <= c <= 'z') || ('0' <= c <= '9') || c == '_' || c == '-'
  }

  predicate IsSlug(s: string) {
    forall i :: 0 <= i < |s| ==> IsSlugChar(s[i])
  }

  /**
   * `toLowerCase` on one character, exact for every character that can reach
   * the output: ASCII upper case, and the two non-ASCII characters whose
   * lower case is ASCII (KELVIN SIGN becomes `k`; LATIN CAPITAL LETTER I WITH
   * DOT ABOVE becomes `i` followed by COMBINING DOT ABOVE). Any other
   * character is left as it is; JavaScript would lower some of them, but only
   * to non-ASCII, non-space characters that the last stage removes anyway.
   */
  function LowerChar(c: char): (r: string)
    ensures |r| >= 1
    ensures IsSpace(c) ==> r == [c]
    ensures !IsSpace(c) ==> forall i :: 0 <= i < |r| ==> !IsSpace(r[i])
    ensures forall i :: 0 <= i < |r| ==> !('A' <= r[i] <= 'Z')
    ensures 'A' <= c <= 'Z' ==> r == [(c as int + 32) as char] && 'a' <= r[0] <= 'z'
    ensures !('A' <= c <= 'Z') && c != '\U{212A}' && c != '\U{0130}' ==> r == [c]
  {
    if 'A' <= c <= 'Z' then
      var lowered := (c as int + 32) as char;
      assert 'a' <= lowered <= 'z';
      [lowered]
    else if c == '\U{212A}' then "k"
    else if c == '\U{0130}' then "i\U{0307}"
    else [c]
  }

  /** ASCII lower case of one character: `A`-`Z` move to `a`-`z`, anything else is kept. */
  function AsciiLower(c: char): (r: char)
    ensures 'A' <= c <= 'Z' ==> 'a' <= r <= 'z' && r as int == c as int + 32
    ensures !('A' <= c <= 'Z') ==> r == c
  {
    if 'A' <= c <= 'Z' then (c as int + 32) as char else c
  }

  function Lower(s: string): (r: string)
    ensures forall i :: 0 <= i < |r| ==> !('A' <= r[i] <= 'Z')
  {
    if s == [] then [] else LowerChar(s[0]) + Lower(s[1..])
  }

  /**
   * Without KELVIN SIGN and LATIN CAPITAL LETTER I WITH DOT ABOVE, lower-casing
   * keeps the length and lowers each character on its own.
   */
  lemma {:induction false} LowerOfPlain(s: string)
    requires forall i :: 0 <= i < |s| ==> s[i] != '\U{212A}' && s[i] != '\U{0130}'
    ensures |Lower(s)| == |s|
    ensures forall i :: 0 <= i < |s| ==> Lower(s)[i] == AsciiLower(s[i])
  {
    if s != [] {
      LowerOfPlain(s[1..]);
      var r := Lower(s);
      assert r == [AsciiLower(s[0])] + Lower(s[1..]);
      forall i | 0 <= i < |s| ensures r[i] == AsciiLower(s[i]) {
        if i > 0 { assert r[i] == Lower(s[1..])[i - 1]; }
      }
    }
  }

  /** Length of the whitespace run at the front of `s`. */
  function RunLength(s: string): (n: nat)
    ensures n <= |s|
    ensures forall i :: 0 <= i < n ==> IsSpace(s[i])
    ensures n < |s| ==> !IsSpace(s[n])
  {
    if s == [] || !IsSpace(s[0]) then 0 else 1 + RunLength(s[1..])
  }

  /** `replace(/\s+/g, '-')`: every maximal whitespace run becomes one hyphen. */
  function Hyphenate(s: string): (r: string)
    decreases |s|
    ensures forall i :: 0 <= i < |r| ==> !IsSpace(r[i])
    ensures forall i :: 0 <= i < |r| ==> r[i] == '-' || r[i] in s
  {
    if s == [] then []
    else if IsSpace(s[0]) then "-" + Hyphenate(s[RunLength(s)..])
    else [s[0]] + Hyphenate(s[1..])
  }

  /** `replace(/[^\w\-]+/g, '')`: every character outside `[A-Za-z0-9_-]` is removed. */
  function Strip(s: string): (r: string)
    ensures |r| <= |s|
    ensures forall i :: 0 <= i < |r| ==> IsKept(r[i]) && r[i] in s
  {
    if s == [] then []
    else if IsKept(s[0]) then [s[0]] + Strip(s[1..])
    else Strip(s[1..])
  }

  /** The slug derived from a product name. */
  function Derive(name: string): (r: string)
    ensures IsSlug(r)
    ensures forall i :: 0 <= i < |r| ==> !IsSpace(r[i])
  {
    var lowered := Lower(name);
    var hyphenated := Hyphenate(lowered);
    assert forall i :: 0 <= i < |hyphenated| ==> !('A' <= hyphenated[i] <= 'Z');
    Strip(hyphenated)
  }

  // ---------------------------------------------------------------------------
  // Each stage leaves a slug alone, hence idempotence.

  lemma {:induction false} LowerFixesSlug(s: string)
    requires IsSlug(s)
    ensures Lower(s) == s
  {
    if s != [] {
      LowerFixesSlug(s[1..]);
    }
  }

  lemma {:induction false} HyphenateFixesSpaceless(s: string)
    requires forall i :: 0 <= i < |s| ==> !IsSpace(s[i])
    ensures Hyphenate(s) == s
  {
    if s != [] {
      HyphenateFixesSpaceless(s[1..]);
    }
  }

  lemma {:induction false} StripFixesKept(s: string)
    requires forall i :: 0 <= i < |s| ==> IsKept(s[i])
    ensures Strip(s) == s
  {
    if s != [] {
      StripFixesKept(s[1..]);
    }
  }

  /** A slug derives to itself. */
  lemma DeriveFixesSlug(s: string)
    requires IsSlug(s)
    ensures Derive(s) == s
  {
    LowerFixesSlug(s);
    HyphenateFixesSpaceless(s);
    StripFixesKept(s);
  }

  /** Deriving from a derived slug returns it unchanged. */
  lemma DeriveIdempotent(name: string)
    ensures Derive(Derive(name)) == Derive(name)
  {
    DeriveFixesSlug(Derive(name));
  }

  // ---------------------------------------------------------------------------
  // Derivation splits at every boundary that does not fall inside a whitespace run.

  predicate EndsInSpace(s: string) {
    s != [] && IsSpace(s[|s| - 1])
  }

  predicate StartsWithSpace(s: string) {
    s != [] && IsSpace(s[0])
  }

  lemma {:induction false} LowerAppend(a: string, b: string)
    ensures Lower(a + b) == Lower(a) + Lower(b)
  {
    if a == [] {
      assert a + b == b;
    } else {
      assert (a + b)[0] == a[0];
      assert (a + b)[1..] == a[1..] + b;
      LowerAppend(a[1..], b);
    }
  }

  lemma {:induction false} StripAppend(a: string, b: string)
    ensures Strip(a + b) == Strip(a) + Strip(b)
  {
    if a == [] {
      assert a + b == b;
    } else {
      assert (a + b)[0] == a[0];
      assert (a + b)[1..] == a[1..] + b;
      StripAppend(a[1..], b);
    }
  }

  lemma {:induction false} LowerEnds(s: string)
    ensures StartsWithSpace(Lower(s)) <==> StartsWithSpace(s)
    ensures EndsInSpace(Lower(s)) <==> EndsInSpace(s)
  {
    if s != [] {
      var init, last := s[..|s| - 1], s[|s| - 1];
      assert s == init + [last];
      LowerAppend(init, [last]);
      assert Lower([last]) == LowerChar(last) + Lower([]);
      var lc := LowerChar(last);
      assert IsSpace(last) ==> lc == [last];
      assert !IsSpace(last) ==> !IsSpace(lc[|lc| - 1]);
    }
  }

  lemma {:induction false} RunLengthAppend(a: string, b: string)
    requires a != [] && IsSpace(a[0])
    requires !(EndsInSpace(a) && StartsWithSpace(b))
    ensures RunLength(a + b) == RunLength(a)
    decreases |a|
  {
    if |a| > 1 && IsSpace(a[1]) {
      assert (a + b)[1..] == a[1..] + b;
      RunLengthAppend(a[1..], b);
    } else if |a| == 1 {
      assert (a + b)[1..] == b;
    } else {
      assert (a + b)[1..] == a[1..] + b;
    }
  }

  lemma {:induction false} HyphenateAppend(a: string, b: string)
    requires !(EndsInSpace(a) && StartsWithSpace(b))
    ensures Hyphenate(a + b) == Hyphenate(a) + Hyphenate(b)
    decreases |a|
  {
    if a == [] {
      assert a + b == b;
    } else if IsSpace(a[0]) {
      RunLengthAppend(a, b);
      var k := RunLength(a);
      assert (a + b)[k..] == a[k..] + b;
      HyphenateAppend(a[k..], b);
    } else {
      assert (a + b)[1..] == a[1..] + b;
      HyphenateAppend(a[1..], b);
    }
  }

  /** Derivation distributes over a concatenation that does not join two whitespace runs. */
  lemma DeriveAppend(a: string, b: string)
    requires !(EndsInSpace(a) && StartsWithSpace(b))
    ensures Derive(a + b) == Derive(a) + Derive(b)
  {
    LowerAppend(a, b);
    LowerEnds(a);
    LowerEnds(b);
    HyphenateAppend(Lower(a), Lower(b));
    StripAppend(Hyphenate(Lower(a)), Hyphenate(Lower(b)));
  }

  /** A whitespace run, however long and whatever it is made of, derives to exactly one hyphen. */
  lemma {:induction false} DeriveSpaceRun(ws: string)
    requires ws != []
    requires forall i :: 0 <= i < |ws| ==> IsSpace(ws[i])
    ensures Derive(ws) == "-"
  {
    LowerOfSpaces(ws);
    assert RunLength(ws) == |ws|;
    assert ws[|ws|..] == [];
    assert Hyphenate(ws) == "-";
    assert Strip("-") == "-" + Strip([]);
  }

  lemma {:induction false} LowerOfSpaces(ws: string)
    requires forall i :: 0 <= i < |ws| ==> IsSpace(ws[i])
    ensures Lower(ws) == ws
  {
    if ws != [] {
      LowerOfSpaces(ws[1..]);
    }
  }

  /**
   * Each maximal whitespace run in a name contributes exactly one hyphen
   * between the slugs of the text around it.
   */
  lemma DeriveAroundRun(a: string, ws: string, b: string)
    requires !EndsInSpace(a) && !StartsWithSpace(b)
    requires ws != [] && forall i :: 0 <= i < |ws| ==> IsSpace(ws[i])
    ensures Derive(a + ws + b) == Derive(a) + "-" + Derive(b)
  {
    assert EndsInSpace(ws);
    DeriveAppend(a, ws);
    assert !EndsInSpace(a + ws) || !StartsWithSpace(b);
    DeriveAppend(a + ws, b);
    DeriveSpaceRun(ws);
  }

  /** A single non-space character derives to its lower case if that is kept, and to nothing otherwise. */
  lemma DeriveChar(c: char)
    requires !IsSpace(c)
    ensures Derive([c]) == Strip(LowerChar(c))
    ensures IsKept(c) ==> Derive([c]) == LowerChar(c)
    ensures 'A' <= c <= 'Z' ==> Derive([c]) == [(c as int + 32) as char]
  {
    var lc := LowerChar(c);
    assert Lower([c]) == lc + Lower([]);
    assert Lower([c]) == lc;
    HyphenateFixesSpaceless(lc);
    if IsKept(c) {
      StripFixesKept(lc);
    }
  }

  /** A character that contributes nothing to a slug. */
  predicate Dropped(c: char) {
    !IsSpace(c) && Strip(LowerChar(c)) == []
  }

  /** A name that starts with whitespace derives to a slug that starts with a hyphen. */
  lemma LeadingSpace(name: string)
    requires StartsWithSpace(name)
    ensures Derive(name) != [] && Derive(name)[0] == '-'
  {
    LowerEnds(name);
    var h := Hyphenate(Lower(name));
    assert h[0] == '-';
    assert h == [h[0]] + h[1..];
    StripAppend([h[0]], h[1..]);
    assert Strip([h[0]]) == [h[0]] + Strip([]);
  }

  /** A name that starts with a non-space character derives to that character's part, then the rest's slug. */
  lemma DeriveCons(c: char, rest: string)
    requires !IsSpace(c)
    ensures Derive([c] + rest) == Strip(LowerChar(c)) + Derive(rest)
  {
    DeriveAppend([c], rest);
    DeriveChar(c);
  }

  /** A name derives to the empty slug exactly when every one of its characters is dropped. */
  lemma {:induction false} DeriveEmptyIff(name: string)
    ensures Derive(name) == [] <==> forall i :: 0 <= i < |name| ==> Dropped(name[i])
  {
    if name != [] {
      if IsSpace(name[0]) {
        LeadingSpace(name);
      } else {
        EmptyStep(name);
        DeriveEmptyIff(name[1..]);
        AllDroppedCons(name);
      }
    }
  }

  lemma EmptyStep(name: string)
    requires name != [] && !IsSpace(name[0])
    ensures Derive(name) == [] <==> Dropped(name[0]) && Derive(name[1..]) == []
  {
    assert name == [name[0]] + name[1..];
    DeriveCons(name[0], name[1..]);
  }

  lemma AllDroppedCons(name: string)
    requires name != []
    ensures (forall i :: 0 <= i < |name| ==> Dropped(name[i]))
            <==> Dropped(name[0]) && forall i :: 0 <= i < |name[1..]| ==> Dropped(name[1..][i])
  {
    assert forall i :: 1 <= i < |name| ==> name[i] == name[1..][i - 1];
  }

  /** Text without whitespace derives to its lower case with the removed characters dropped. */
  lemma DeriveSpaceless(w: string)
    requires forall i :: 0 <= i < |w| ==> !IsSpace(w[i])
    ensures Derive(w) == Strip(Lower(w))
  {
    LowerOfSpaceless(w);
    HyphenateFixesSpaceless(Lower(w));
  }

  lemma {:induction false} LowerOfSpaceless(w: string)
    requires forall i :: 0 <= i < |w| ==> !IsSpace(w[i])
    ensures forall i :: 0 <= i < |Lower(w)| ==> !IsSpace(Lower(w)[i])
  {
    if w != [] {
      LowerOfSpaceless(w[1..]);
      var head, tail := LowerChar(w[0]), Lower(w[1..]);
      assert Lower(w) == head + tail;
      forall i | 0 <= i < |head + tail| ensures !IsSpace((head + tail)[i]) {
        if i >= |head| { assert (head + tail)[i] == tail[i - |head|]; }
      }
    }
  }

  // ---------------------------------------------------------------------------
  // Names made of letters, digits, `_` and `-` only.

  /** ASCII lower case of a whole text, character by character. */
  function LowerAscii(w: string): (r: string)
    ensures |r| == |w|
    ensures forall i :: 0 <= i < |w| ==> r[i] == AsciiLower(w[i])
  {
    if w == [] then [] else [AsciiLower(w[0])] + LowerAscii(w[1..])
  }

  /** A word of `[A-Za-z0-9_-]` characters derives to its ASCII lower case. */
  lemma {:induction false} DeriveKeptWord(w: string)
    requires forall i :: 0 <= i < |w| ==> IsKept(w[i])
    ensures Derive(w) == LowerAscii(w)
  {
    if w != [] {
      var c, rest := w[0], w[1..];
      assert w == [c] + rest;
      DeriveCons(c, rest);
      KeptCharLower(c);
      DeriveKeptWord(rest);
    }
  }

  /** A kept character survives the last stage as its ASCII lower case. */
  lemma KeptCharLower(c: char)
    requires IsKept(c)
    ensures !IsSpace(c) && Strip(LowerChar(c)) == [AsciiLower(c)]
  {
    assert LowerChar(c) == [AsciiLower(c)];
    assert Strip([AsciiLower(c)]) == [AsciiLower(c)] + Strip([]);
  }

  // The worked example below is assembled from one small lemma per piece.
  // Each literal enters as a parameter fixed by a `requires`, and every
  // split or join of a literal is its own step (`SplitAt`, `JoinExample`),
  // because the verifier evaluates functions applied to a string literal
  // eagerly, and a whole name at once exhausts its resource budget.

  lemma DigitsWord(w: string)
    requires w == "100"
    ensures Derive(w) == "100"
  {
    assert IsSlug(w);
    DeriveFixesSlug(w);
  }

  lemma PercentSign(w: string)
    requires w == "%"
    ensures Derive(w) == []
  {
    assert w == [w[0]];
    DeriveChar(w[0]);
    assert LowerChar(w[0]) == w;
    assert Strip(w) == Strip([]);
  }

  /** The `%` sign is removed: `"100%"` derives to `"100"`. */
  lemma PercentWord(w: string)
    requires w == "100%"
    ensures Derive(w) == "100"
  {
    var digits, sign := w[..3], w[3..];
    assert w == digits + sign;
    DigitsWord(digits);
    PercentSign(sign);
    DeriveAppend(digits, sign);
  }

  lemma SplitAt(s: string, k: nat)
    requires k < |s|
    ensures s == s[..k] + [s[k]] + s[k + 1..]
  {
    assert s == s[..k] + s[k..];
    assert s[k..] == [s[k]] + s[k + 1..];
  }

  lemma GoldWord(w: string)
    requires w == "Gold"
    ensures Derive(w) == "gold"
  {
    DeriveKeptWord(w);
  }

  lemma WheyTail(tail: string)
    requires tail == "Whey 100%"
    ensures Derive(tail) == "whey-100"
  {
    var whey, pct := tail[..4], tail[5..];
    SplitAt(tail, 4);
    assert Derive(whey) == "whey" by { DeriveKeptWord(whey); }
    PercentWord(pct);
    DeriveAroundRun(whey, [tail[4]], pct);
  }

  lemma JoinExample()
    ensures "gold" + "-" + "whey-100" == "gold-whey-100"
  {
  }

  /** The worked example: "Gold Whey 100%" derives to `gold-whey-100`. */
  lemma GoldWheyExample(name: string)
    requires name == "Gold Whey 100%"
    ensures Derive(name) == "gold-whey-100"
  {
    var gold, tail := name[..4], name[5..];
    SplitAt(name, 4);
    GoldWord(gold);
    WheyTail(tail);
    DeriveAroundRun(gold, [name[4]], tail);
    JoinExample();
  }
}

=== FILE: supplements.dfy ===
/**
 * The supplements listing: a category selector and a brand selector, each
 * with an `'all'` sentinel, filtering the already-fetched product list.
 */
module Supplements {
  import opened Wrappers
  import opened Catalog

  const All := "all"

  datatype Selection = Selection(category: string, brand: string)

  /** The selection the page starts with, and the one "Clear filters" restores. */
  const Unfiltered := Selection(All, All)

  /** `selectedCategory === 'all' || product.category === selectedCategory`; an absent category never equals a string. */
  predicate CategoryMatch(p: Product, sel: Selection) {
    sel.category == All || p.category == Some(sel.category)
  }

  /** `selectedBrand === 'all' || product.brand === selectedBrand`. */
  predicate BrandMatch(p: Product, sel: Selection) {
    sel.brand == All || p.brand == Some(sel.brand)
  }

  predicate Matches(p: Product, sel: Selection) {
    CategoryMatch(p, sel) && BrandMatch(p, sel)
  }

  /** `filteredProducts`: the products that match, in list order. */
  function Filtered(ps: seq<Product>, sel: Selection): (r: seq<Product>)
    ensures |r| <= |ps|
    ensures forall i :: 0 <= i < |r| ==> Matches(r[i], sel)
    ensures sel.category != All ==> forall i :: 0 <= i < |r| ==> r[i].category == Some(sel.category)
    ensures sel.brand != All ==> forall i :: 0 <= i < |r| ==> r[i].brand == Some(sel.brand)
    ensures forall p :: multiset(r)[p] == if Matches(p, sel) then multiset(ps)[p] else 0
  {
    if ps == [] then []
    else
      var rest := Filtered(ps[1..], sel);
      assert ps == [ps[0]] + ps[1..];
      assert multiset(ps) == multiset{ps[0]} + multiset(ps[1..]);
      if Matches(ps[0], sel) then [ps[0]] + rest else rest
  }

  /** `a` is `b` with some elements removed and the rest kept in order. */
  predicate IsSubsequence<T(==)>(a: seq<T>, b: seq<T>)
    decreases |b|
  {
    if a == [] then true
    else if b == [] then false
    else (a[0] == b[0] && IsSubsequence(a[1..], b[1..])) || IsSubsequence(a, b[1..])
  }

  /** The filtered list is an order-preserving subsequence of the product list. */
  lemma {:induction false} FilteredIsSubsequence(ps: seq<Product>, sel: Selection)
    ensures IsSubsequence(Filtered(ps, sel), ps)
  {
    if ps != [] {
      FilteredIsSubsequence(ps[1..], sel);
      var r := Filtered(ps, sel);
      if Matches(ps[0], sel) {
        assert r[0] == ps[0] && r[1..] == Filtered(ps[1..], sel);
      } else {
        assert r == Filtered(ps[1..], sel);
      }
    }
  }

  /** Membership: a product is listed exactly when it is in the list and passes both selectors. */
  lemma FilteredMembership(ps: seq<Product>, sel: Selection, p: Product)
    ensures p in Filtered(ps, sel) <==> p in ps && CategoryMatch(p, sel) && BrandMatch(p, sel)
  {
    assert p in Filtered(ps, sel) <==> multiset(Filtered(ps, sel))[p] > 0;
    assert p in ps <==> multiset(ps)[p] > 0;
  }

  /** With both selectors on `'all'` the whole list is shown. */
  lemma {:induction false} UnfilteredKeepsAll(ps: seq<Product>)
    ensures Filtered(ps, Unfiltered) == ps
  {
    if ps != [] {
      UnfilteredKeepsAll(ps[1..]);
      assert ps == [ps[0]] + ps[1..];
    }
  }

  /** Filtering by both selectors is filtering by category, then by brand. */
  lemma {:induction false} FilterComposes(ps: seq<Product>, sel: Selection)
    ensures Filtered(ps, sel) == Filtered(Filtered(ps, Selection(sel.category, All)), Selection(All, sel.brand))
  {
    if ps != [] {
      FilterComposes(ps[1..], sel);
      var byCategory := Filtered(ps, Selection(sel.category, All));
      if CategoryMatch(ps[0], sel) {
        assert byCategory == [ps[0]] + Filtered(ps[1..], Selection(sel.category, All));
        assert byCategory[1..] == Filtered(ps[1..], Selection(sel.category, All));
      }
    }
  }

  /** "Clear filters" is offered only when some selector is not on `'all'`. */
  predicate ClearOffered(sel: Selection) {
    sel.category != All || sel.brand != All
  }

  /** The "Clear filters" transition: both selectors back to `'all'`. */
  function Clear(sel: Selection): (r: Selection)
    requires ClearOffered(sel)
    ensures r == Unfiltered && r != sel
  {
    Unfiltered
  }

  /** After clearing, every product is listed again. */
  lemma ClearShowsAll(ps: seq<Product>, sel: Selection)
    requires ClearOffered(sel)
    ensures Filtered(ps, Clear(sel)) == ps
  {
    UnfilteredKeepsAll(ps);
  }

  /** Decimal rendering of a count, as JSX prints a number. */
  function Decimal(n: nat): (r: string)
    ensures r != [] && IsDigits(r)
    ensures |r| > 1 ==> r[0] != '0'
  {
    if n < 10 then [Digit(n)] else Decimal(n / 10) + [Digit(n % 10)]
  }

  function Digit(d: nat): (c: char)
    requires d < 10
    ensures '0' <= c <= '9' && c as int - '0' as int == d
  {
    ('0' as int + d) as char
  }

  /** Reads a string of decimal digits back as a number. */
  function DecimalValue(s: string): (n: nat)
    requires IsDigits(s)
  {
    if s == [] then 0 else 10 * DecimalValue(s[..|s| - 1]) + (s[|s| - 1] as int - '0' as int)
  }

  /** The printed count reads back as the count. */
  lemma {:induction false} DecimalRoundTrip(n: nat)
    ensures DecimalValue(Decimal(n)) == n
  {
    if n >= 10 {
      DecimalRoundTrip(n / 10);
      var s := Decimal(n);
      assert s[..|s| - 1] == Decimal(n / 10);
    }
  }

  /** `Showing {n} product{n !== 1 ? 's' : ''}`. */
  function CountLabel(n: nat): (r: string)
    ensures |r| > 8 && r[..8] == "Showing "
    ensures r[|r| - 1] == 's' <==> n != 1
    ensures exists k :: 8 < k < |r| && IsDigits(r[8..k]) && DecimalValue(r[8..k]) == n
                        && (k > 9 ==> r[8] != '0')
                        && r[k..] == (if n != 1 then " products" else " product")
  {
    var digits := Decimal(n);
    var noun := if n != 1 then " products" else " product";
    var text := "Showing " + digits + noun;
    assert text[..8] == "Showing ";
    assert text[8..8 + |digits|] == digits && text[8 + |digits|..] == noun;
    DecimalRoundTrip(n);
    text
  }

  predicate IsDigits(s: string) {
    forall i :: 0 <= i < |s| ==> '0' <= s[i] <= '9'
  }

  /** What the page shows below the filters once loading has finished without error. */
  datatype Grid =
    | NoProducts(offersClear: bool)
    | Showing(caption: string, items: seq<Product>)

  function GridOf(ps: seq<Product>, sel: Selection): (g: Grid)
    ensures g.NoProducts? <==> forall i :: 0 <= i < |ps| ==> !Matches(ps[i], sel)
    ensures g.NoProducts? ==> (g.offersClear <==> sel != Unfiltered)
    ensures g.Showing? ==> g.items == Filtered(ps, sel) && |g.items| >= 1
    ensures g.Showing? ==> g.caption == CountLabel(|g.items|)
  {
    var shown := Filtered(ps, sel);
    if |shown| == 0 then
      assert forall i :: 0 <= i < |ps| ==> !Matches(ps[i], sel) by {
        forall i | 0 <= i < |ps| ensures !Matches(ps[i], sel) {
          assert multiset(ps)[ps[i]] > 0;
        }
      }
      NoProducts(ClearOffered(sel))
    else
      assert Matches(shown[0], sel) && multiset(ps)[shown[0]] > 0;
      Showing(CountLabel(|shown|), shown)
  }

  /** An empty state without a "Clear filters" button means there are no products at all. */
  lemma EmptyWithoutClearMeansNoProducts(ps: seq<Product>, sel: Selection)
    requires GridOf(ps, sel) == NoProducts(false)
    ensures ps == []
  {
    if ps != [] {
      assert Matches(ps[0], Unfiltered);
    }
  }
}

=== FILE: wrappers.dfy ===
/** Optional values: `None` stands for a JavaScript `undefined` (an absent property). */
module Wrappers {

  datatype Option<+T> = None | Some(value: T)
}
